=== FILE: README.md ===
# Options-chain analysis service: decision core in Dafny

The service lists tradable derivative symbols, lists the expiry dates of a
symbol in date order, and streams a language-model analysis of a symbol's
options chain as server-sent events. The chain comes from a file cache that
is refetched after thirty minutes. This project models the four pure rules
under that I/O. Everything that talks to the outside world becomes an input:
the filesystem, the clock, the options-chain provider and the generative
model.

- `Symbols` covers `get_default_derivative_symbols` and
  `load_nse_derivative_symbols`. The outcome of reading the symbols file is
  a variant: `Absent`, `Malformed`, `NotAList` or `List(xs)`. A list comes
  back as Python's `sorted(set(xs))`. Any other outcome gives the fallback
  list in its literal order.
- `Cache` covers `fetch_and_cache_options_data`. It is one step over an
  abstract store that maps a file name to a decoded snapshot and its mtime.
  The step takes an integer clock, the provider's answer, and whether the
  cache file opens for writing (`Cache.WriteOutcome`). It returns the
  value handed back, the new store, and the symbol the provider was asked
  for, if it was asked.
- `Dates` and `Expiries` cover `get_expiries`. `Dates` is the
  `strptime(x, "%d-%b-%Y")` parse. `Expiries` is the stable sort by parsed
  date, where one unparseable entry empties the whole answer.
- `Stream` and `Pipeline` cover `stream_analysis_with_gemini` and
  `stream_analysis`. They frame the model's streamed text parts as
  `data: …\n\n` events with an `[END]` sentinel or one error event. A
  missing or falsy cache result gives the single fetch-error event.
- `SseClient` is the receiving side. Flask sends the yielded strings as one
  `text/event-stream` body. `SseClient` parses that body the way section
  9.2.6 ("Interpreting an event stream") of the HTML Living Standard
  describes, keeping only the `data` field. It shows which texts a client
  gets back intact and which it does not.
- `Lex` is Python's string order, `Json` holds decoded JSON values and their
  truthiness, and `Wrappers` defines `Option`.

Behaviour of app.py that the model keeps as written:

- The fallback symbol list is returned in the order written, which is not
  sorted (app.py:22-24).
- Freshness is `now - mtime < 30 min`, strictly (app.py:50). An entry
  exactly thirty minutes old is refetched. An mtime in the future counts as
  fresh.
- A provider reply that is not a JSON object cannot take the
  `fetch_timestamp` item assignment (app.py:56). The assignment raises
  inside the `try`, so the result is `None` and nothing is written.
- A cache file that cannot be opened for writing (app.py:57) raises inside
  the `try`, after the provider has answered. The result is `None` and
  nothing is stored. Examples are an expiry holding a `/` that leads into a
  missing directory, an unwritable cache directory, or a name that is too
  long. The request then gets the fetch-error event.
- Each text part becomes one `data: ` line (app.py:91). In a text part with
  a line break, an event-stream client loses every later line that is not
  itself a `data` field. A blank line inside a text ends the message there.
  What follows reaches the client only through later lines that are
  themselves `data` fields (`SseClient.SplitByBlankLine`). So of a text
  written in paragraphs, the client keeps the first paragraph
  (`SseClient.ParagraphDropped`).

Clock ticks are microseconds, the resolution of Python's `datetime`. They
count naive local wall-clock time, as `datetime.now()` (app.py:46) and
`datetime.fromtimestamp` (app.py:49) both give. The ISO rendering of the
clock is an input that comes with it.

## Model

| member | source | states |
|---|---|---|
| Symbols.LoadSymbols | app.py:27-37 | a decoded list gives a strictly increasing list with exactly the list's elements; absent, malformed and non-list files give the fallback list verbatim |
| Symbols.SortedSet | app.py:33 | `sorted(set(xs))` is strictly increasing in Python's string order and holds exactly the elements of `xs` |
| Symbols.LoadIsSortedSet | app.py:33 | the loaded list is the only strictly increasing list with the file's elements, so it is exactly `sorted(set(xs))` |
| Symbols.LoadIdempotent | app.py:32-33 | loading a file that holds a previously loaded list gives the same list back |
| Symbols.DefaultsUnsorted | app.py:21-25 | the fallback (`Symbols.DefaultSymbols`) has eleven symbols, the same ones a file listing them would give, but not in sorted order, so a missing file and a file of the defaults load differently |
| Symbols.LoadExample | app.py:32-33 | a file holding `["b","a","a"]` loads as `["a","b"]` |
| Cache.Stamp | app.py:56 | stamping succeeds exactly on JSON objects; it sets `fetch_timestamp` to the clock's ISO text and keeps every other field |
| Cache.FetchAndCache | app.py:44-62 | the provider is left unasked exactly when the key's entry is fresh; when asked, it is asked for the symbol alone; a `None` result leaves the store as it was; only the requested key can be added or changed; once the provider is asked, a file that fails to open for writing makes the result `None` |
| Cache.FreshHit | app.py:48-52 | an entry younger than thirty minutes (`Cache.Fresh`, a strict `<`) is returned as stored, the store is untouched and the provider's answer is ignored |
| Cache.ThirtyMinutesIsStale | app.py:50 | an entry exactly thirty minutes old is stale and the provider is asked |
| Cache.MissStoresSnapshot | app.py:54-59 | on a miss or stale entry, a successful fetch whose file opens for writing returns the stamped object, stores it under the key with mtime = now, and adds no other key |
| Cache.FailureLeavesStore | app.py:54-62 | on a miss or stale entry, a failed or unstampable fetch returns `None` and leaves the store unchanged |
| Cache.WriteFailureLeavesStore | app.py:54-62 | on a miss or stale entry, a file that cannot be opened for writing gives `None` after the provider was asked, whatever it answered, and leaves the store unchanged |
| Cache.ReadBack | app.py:48-59 | after a fetch at time t whose file opened for writing, reads before t + 30 min get the same snapshot back without a fetch; reads from t + 30 min on ask the provider again |
| Cache.ExpiryKeyInjective | app.py:45 | for one symbol, equal cache file names (`Cache.CacheKey`) mean equal expiries: distinct expiries get distinct file names |
| Cache.TwoExpiriesTwoEntries | app.py:44-59 | two expiries of one symbol ask the provider for that same symbol twice and, when both files open for writing, leave two separate cache entries |
| Cache.KeyCollision | app.py:45 | the pairs (`A_B`, `C`) and (`A`, `B_C`) share the file `A_B_C.json` |
| Cache.KeyDeterminesPair | app.py:45 | when no symbol contains `_`, the file name determines both the symbol and the expiry |
| Dates.ParseDay | app.py:113 | an accepted `%d` field is a day from 1 to 31 written as two digits, or, below ten, as one digit or a space and one digit |
| Dates.DayFormParses | app.py:113 | every one of those ways of writing a day is accepted and read as that day |
| Dates.ParseMonth | app.py:113 | the `%b` field is accepted exactly when it is three letters whose lower case is a month abbreviation, and it is read as that month |
| Dates.MonthSpelled | app.py:113 | three letters whose lower case names a month are read as that month's number |
| Dates.ParseYear | app.py:113 | the `%Y` field is accepted exactly when it is four ASCII digits, and it is read as the year those digits spell |
| Dates.ParseExpiry | app.py:113 | a successful parse yields a real calendar date in years 1 to 9999, and the string spells that date: day form, dash, month letters in any case, dash, four year digits |
| Dates.ParseExactly | app.py:113 | a string parses to a date if and only if the date is valid and the string spells it |
| Dates.ParseFormat | app.py:113 | every valid date written as `DD-Mon-YYYY` parses back to itself |
| Dates.ParseLooseForms | app.py:113 | single-digit and space-padded days parse, and month names match in any letter case |
| Dates.ParseLeapDay | app.py:113 | 29 February parses in a leap year |
| Dates.ParseRejectsNonLeapDay | app.py:113 | 29 February is refused outside a leap year |
| Dates.ParseRejectsDayZero | app.py:113 | day `00` is refused |
| Dates.ParseRejectsYearZero | app.py:113 | year `0000` is refused |
| Dates.ParseRejectsOtherLayouts | app.py:113 | a full month name or a two-digit year is refused |
| Expiries.StableSort | app.py:111-114 | the result is non-decreasing by date and a permutation of the input |
| Expiries.SortExpiries | app.py:111-117 | if every string parses, the answer is a permutation of the input sorted by `Expiries.Key`, the parsed date of `key=lambda x: strptime(…)`; otherwise it is empty |
| Expiries.SortExpiriesStable | app.py:111-114 | the strings on each date keep their input order, on top of the permutation and ordering guarantees |
| Expiries.SortExpiriesUnique | app.py:111-114 | any date-sorted list that keeps each date's strings in input order equals the answer, so the insertion sort here and Python's stable sort agree |
| Expiries.ExpiriesResponse | app.py:104-118 | a failed provider call or lookup, or any non-string entry, gives `[]`; an all-string list gives the sorted expiries |
| Stream.Unframe | app.py:91 | a payload read back from one yielded string, taken on its own, re-frames to exactly that string |
| Stream.UnframeFrame | app.py:91 | framing (`Stream.Frame`) is lossless: the payload of `data: t\n\n` is `t` |
| Stream.Events | app.py:87-94 | one event per text part in chunk order, then `data: [END]\n\n` exactly when the stream finished, or the error event when it raised |
| Stream.RelayParts | app.py:88-91 | the inner loop emits one event per part that has text, in part order |
| Stream.Relay | app.py:85-94 | the nested loops over chunks and first-candidate parts produce exactly the events of `Events` |
| Stream.Incremental | app.py:87-91 | the events for chunks `a` then `b` are the events for `a` followed by the events for `b`, so relaying is chunk by chunk |
| Stream.PayloadsRecovered | app.py:87-94 | each yielded string, decoded on its own, gives back its text in order, then `[END]` or the Gemini error text |
| Stream.EarlySentinel | app.py:91-92 | an `[END]` yield before the last one can only come from a text part that was literally `[END]` |
| Stream.HelloWorld | app.py:85-94 | a reply of the two fragments `Hello ` and `world` that finishes normally yields exactly `data: Hello \n\n`, `data: world\n\n`, `data: [END]\n\n` |
| Stream.ErrorIsNotEnd | app.py:92-94 | the error event never equals the sentinel |
| SseClient.DataValue | app.py:91 | a line is a `data` field exactly when it reads `data` or starts with `data:`; the value is what follows the colon, less one space if there is one |
| SseClient.MessagesFrame | app.py:91 | an event whose text has no line break is received as one message holding exactly that text, and parsing resumes cleanly after it |
| SseClient.MessagesFrames | app.py:87-91 | a run of such events is received as one message per text, in order |
| SseClient.ClientReceives | app.py:85-94 | a client parsing the whole `text/event-stream` body receives every text in order, then `[END]` or the Gemini error text, as long as no text and no error message holds a line break |
| SseClient.TruncatedAtBreak | app.py:91 | a text `x` newline `y`, where `y` is not a `data` field, is received as `x` alone |
| SseClient.SplitByBlankLine | app.py:91 | a text holding a blank line and then a `data: ` line is received as two messages |
| SseClient.SkippedLines | app.py:91 | between messages, a line that is not a `data` field and the blank line after it produce no message |
| SseClient.ParagraphDropped | app.py:91 | a text `x`, blank line, `y`, where `y` is not a `data` field, is received as `x` alone |
| SseClient.ParagraphBreakLosesRest | app.py:85-94 | a reply whose only text is the two paragraphs `a` and `b` is received as `a`, then `[END]` |
| SseClient.MultiLineTextTruncated | app.py:85-94 | a reply whose only text is `a` newline `b` is received as `a`, then `[END]` |
| SseClient.InjectedSentinel | app.py:85-94 | a reply whose only text holds a blank line and `data: [END]` makes the client receive `[END]` before the real end |
| Pipeline.StreamAnalysis | app.py:125-129 | a `None` or falsy snapshot (falsy as `Json.Truthy` defines it) gives exactly the fetch-error event; a truthy one gives the relayed events, and only then is the body something else |
| Pipeline.FetchErrorReceived | app.py:126-127 | a client parsing the fetch-error answer receives exactly one message, `Error fetching data` |
| Pipeline.FetchErrorIsNoClosing | app.py:92-94 | the fetch-error event differs from the sentinel and from every analysis error event |
| Pipeline.Handle | app.py:120-129 | a request answers with the fetch-error event or the relayed analysis; the fetch-error answer never changes the cache; no file disappears |
| Pipeline.MissFailureSingleEvent | app.py:125-127 | a provider failure on a miss gives exactly one fetch-error event and leaves the cache unchanged |
| Pipeline.MissWriteFailureSingleEvent | app.py:125-127 | on a miss, a cache file that cannot be opened for writing gives exactly one fetch-error event, even after a successful fetch, and leaves the cache unchanged |
| Pipeline.MissSuccessRelays | app.py:125-129 | a freshly fetched snapshot whose file opened for writing is truthy because it holds the timestamp, so the analysis is relayed |
| Pipeline.HitDependsOnStoredContent | app.py:125-129 | on a fresh hit, truthy stored content is analysed, falsy content gives the fetch-error event, and the cache stays untouched |

## Left out

- Flask routing, `render_template`, `request.form`, `jsonify` and `Response` (app.py:98-129): the model works on the decisions, not on HTTP. `get_derivative_symbols` and `index` only pass a fixed path along, so they have no member.
- The options-chain provider (app.py:55, 107) and the generative-model client and its configuration (app.py:9-10, 86): they are foreign services. Their answers are inputs: `Cache.Fetched` and `Stream.Reply`.
- The prompt text and `json.dumps` (app.py:67-84): they are template content. The model's reply is an input that does not depend on the snapshot.
- The filesystem, `os.path.getmtime`, `datetime.now` and `isoformat`: they are replaced by an abstract store and a clock value.
- Cache.ReadBack: a written entry gets mtime = the clock reading of app.py:46. The real file is written only after the provider's network fetch returns (app.py:55-57), so its mtime is later by the whole fetch time. The real entry therefore stays fresh that much longer than the thirty minutes the lemma counts from the clock reading.
- Cache.KeyDeterminesPair: it holds for the name strings, not for the files they reach. The name is joined onto `data` as is (app.py:45). The operating system resolves `..` in it, and an absolute symbol replaces the directory. So the symbols `../data/NIFTY` and `NIFTY` reach the same file `data/NIFTY_<expiry>.json`, although neither contains `_`. The store is keyed by name and does not model that aliasing.
- Cache.ExpiryKeyInjective: file names are compared as strings. Symbol and expiry come unchecked from the form (app.py:122-123) into the path (app.py:45). On a case-insensitive filesystem, `07-Nov-2024` and `07-NOV-2024` name one file, and the map store does not model that aliasing.
- An existing symbols file that cannot be opened (app.py:28-29): `open` sits outside the `try`, so `load_nse_derivative_symbols` raises. The model has no input for this case.
- A partial file left when `json.dump` fails after `open("w")` succeeded (app.py:57-58), and a cache file that no longer decodes on a hit (app.py:51-52): that `json.load` sits outside the `try` and would raise. The store holds decoded values only.
- JSON decoding of the symbols file (app.py:31): only its outcome is modelled. Lists with non-string elements are not modelled. Mixed types make `sorted` raise, which falls back to the defaults, and all-number lists are sorted as numbers.
- Dates.ParseExpiry: it accepts only ASCII digits and ASCII letters. Python's `\d` also matches other Unicode digits, and its case-insensitive `%b` also matches a few non-ASCII letters. Month names are the English abbreviations, so the process locale is fixed.
- JSON floating-point numbers: `Json` numbers are integers, so a float `0.0` snapshot, which is falsy, is not represented.
- Expiries.ExpiriesResponse: the `["records"]["expiryDates"]` lookup is taken as already done. Its input is either the failure or the values `sorted` iterates over. For a dictionary that means its keys, in the order the caller gives.
- Stream.PayloadsRecovered: it decodes each yielded string on its own. What a client gets from the concatenated body is `SseClient.ClientReceives`, which is proved only for texts and error messages without line breaks. A text with line breaks loses every later line that is not itself a `data` field, and a blank line ends the message, so only later `data` lines make a second one (`SseClient.TruncatedAtBreak`, `SseClient.ParagraphDropped`, `SseClient.SplitByBlankLine`). The model does not say which client the page uses, so this is recorded, not corrected.
- SseClient.Messages: only the `data` field is followed. `event`, `id` and `retry` fields, a leading byte-order mark and reconnection are not modelled. The messages are listed whatever their event type.
- The race between concurrent requests for the same key: the source does not guard against it, and the model is sequential.
- `print` logging (app.py:61, 116).

=== FILE: cache.dfy ===
/** The time-bounded options-chain cache (`fetch_and_cache_options_data`).
    The cache directory is an abstract store from file name to entry, the
    wall clock is an input, and the provider's answer for the symbol is an
    input that the step reports whether it consulted. */
module Cache {
  import opened Wrappers
  import opened Json

  /** Clock ticks are microseconds, the resolution of Python's `datetime`. */
  const TicksPerMinute: int := 60 * 1_000_000

  /** Entries younger than thirty minutes are served from the cache. */
  const FreshnessWindow: int := 30 * TicksPerMinute

  /** The field the fetch time is written under. */
  const TimestampField: string := "fetch_timestamp"

  /** The current time: its tick count and its ISO-8601 rendering (the
      rendering itself is done by the caller). */
  datatype Clock = Clock(ticks: int, iso: string)

  /** A cache file: its decoded content and its last-modified time. */
  datatype Entry = Entry(content: Json, mtime: int)

  /** The cache directory, by file name. */
  type Store = map<string, Entry>

  /** What the options-chain provider answers when asked for a symbol. */
  datatype Fetched = Fetched(data: Json) | FetchFailed

  /** Whether `open(file_path, "w")` succeeds. It fails, for instance,
      when the name holds a `/` that leads into a missing directory, when the
      cache directory is not writable, or when the name is too long. */
  datatype WriteOutcome = Written | WriteFailed

  /** The outcome of one cache request: the value returned to the caller
      (`None` for Python's `None`), the store afterwards, and the symbol the
      provider was asked for, if it was asked at all. */
  datatype CacheStep = CacheStep(result: Option<Json>, store: Store, asked: Option<string>)

  /** The cache file name for a (symbol, expiry) pair. */
  function CacheKey(symbol: string, expiry: string): string {
    symbol + "_" + expiry + ".json"
  }

  /** An entry is fresh when its age is strictly below the window. An entry
      whose mtime lies in the future has negative age and is fresh. */
  predicate Fresh(e: Entry, now: int) {
    now - e.mtime < FreshnessWindow
  }

  /** `options_data["fetch_timestamp"] = now.isoformat()`: succeeds only on a
      JSON object, where it sets that one field and keeps all others; on any
      other value the item assignment raises. */
  function Stamp(data: Json, clock: Clock): (r: Option<Json>)
    ensures r.Some? <==> data.JObj?
    ensures r.Some? ==>
              && r.value.JObj?
              && r.value.fields.Keys == data.fields.Keys + {TimestampField}
              && r.value.fields[TimestampField] == JStr(clock.iso)
              && (forall k :: k in data.fields && k != TimestampField ==> r.value.fields[k] == data.fields[k])
  {
    match data
    case JObj(fields) => Some(JObj(fields[TimestampField := JStr(clock.iso)]))
    case _ => None
  }

  /** One call of `fetch_and_cache_options_data(symbol, expiry)`. The
      provider's answer and the outcome of opening the file for writing
      are inputs; each is consulted only when the code gets that far. */
  function FetchAndCache(store: Store, clock: Clock, symbol: string, expiry: string, reply: Fetched,
                         write: WriteOutcome): (step: CacheStep)
    ensures step.asked.None? <==> CacheKey(symbol, expiry) in store && Fresh(store[CacheKey(symbol, expiry)], clock.ticks)
    ensures step.asked.Some? ==> step.asked.value == symbol
    ensures step.asked.Some? && write.WriteFailed? ==> step.result.None?
    ensures step.result.None? ==> step.store == store
    ensures step.store.Keys == store.Keys || step.store.Keys == store.Keys + {CacheKey(symbol, expiry)}
    ensures forall k :: k in store && k != CacheKey(symbol, expiry) ==> step.store[k] == store[k]
  {
    var key := CacheKey(symbol, expiry);
    if key in store && Fresh(store[key], clock.ticks) then
      CacheStep(Some(store[key].content), store, None)
    else
      match reply
      case FetchFailed => CacheStep(None, store, Some(symbol))
      case Fetched(data) =>
        match Stamp(data, clock)
        case None => CacheStep(None, store, Some(symbol))
        case Some(snapshot) =>
          match write
          case WriteFailed => CacheStep(None, store, Some(symbol))
          case Written => CacheStep(Some(snapshot), store[key := Entry(snapshot, clock.ticks)], Some(symbol))
  }

  /** A fresh entry is returned as stored; the store is untouched and the
      provider's answer plays no part. */
  lemma FreshHit(store: Store, clock: Clock, symbol: string, expiry: string, reply: Fetched, write: WriteOutcome)
    requires CacheKey(symbol, expiry) in store
    requires clock.ticks - store[CacheKey(symbol, expiry)].mtime < FreshnessWindow
    ensures FetchAndCache(store, clock, symbol, expiry, reply, write)
         == CacheStep(Some(store[CacheKey(symbol, expiry)].content), store, None)
  {
  }

  /** An entry exactly thirty minutes old is stale: the provider is asked. */
  lemma ThirtyMinutesIsStale(store: Store, clock: Clock, symbol: string, expiry: string, reply: Fetched,
                             write: WriteOutcome)
    requires CacheKey(symbol, expiry) in store
    requires clock.ticks == store[CacheKey(symbol, expiry)].mtime + 30 * TicksPerMinute
    ensures FetchAndCache(store, clock, symbol, expiry, reply, write).asked == Some(symbol)
  {
  }

  /** On a miss or stale entry with a successful fetch and a file that
      opens for writing, the stamped snapshot is returned and stored under
      the key with the current time as mtime; every other file is kept as
      it was. */
  lemma MissStoresSnapshot(store: Store, clock: Clock, symbol: string, expiry: string, fields: map<string, Json>)
    requires var key := CacheKey(symbol, expiry); key !in store || !Fresh(store[key], clock.ticks)
    ensures var step := FetchAndCache(store, clock, symbol, expiry, Fetched(JObj(fields)), Written);
      var snapshot := JObj(fields[TimestampField := JStr(clock.iso)]);
      && step.result == Some(snapshot)
      && step.asked == Some(symbol)
      && CacheKey(symbol, expiry) in step.store
      && step.store[CacheKey(symbol, expiry)] == Entry(snapshot, clock.ticks)
      && step.store.Keys == store.Keys + {CacheKey(symbol, expiry)}
  {
  }

  /** On a miss or stale entry, a provider failure (or a reply that cannot
      be stamped) gives `None` and leaves every cache file as it was. */
  lemma FailureLeavesStore(store: Store, clock: Clock, symbol: string, expiry: string, reply: Fetched,
                           write: WriteOutcome)
    requires var key := CacheKey(symbol, expiry); key !in store || !Fresh(store[key], clock.ticks)
    requires reply.FetchFailed? || !reply.data.JObj?
    ensures FetchAndCache(store, clock, symbol, expiry, reply, write) == CacheStep(None, store, Some(symbol))
  {
  }

  /** On a miss or stale entry, a file that cannot be opened for writing
      gives `None` after the provider was asked, whatever it answered, and
      no cache file changes. */
  lemma WriteFailureLeavesStore(store: Store, clock: Clock, symbol: string, expiry: string, reply: Fetched)
    requires var key := CacheKey(symbol, expiry); key !in store || !Fresh(store[key], clock.ticks)
    ensures FetchAndCache(store, clock, symbol, expiry, reply, WriteFailed) == CacheStep(None, store, Some(symbol))
  {
  }

  /** A snapshot written by a fetch (whose file opened for writing) is
      served back unchanged, without asking
      the provider, to every read less than thirty minutes later; from
      thirty minutes on the provider is asked again. */
  lemma ReadBack(store: Store, c1: Clock, c2: Clock, symbol: string, expiry: string,
                 fields: map<string, Json>, later: Fetched, write: WriteOutcome)
    requires var key := CacheKey(symbol, expiry); key !in store || !Fresh(store[key], c1.ticks)
    ensures var s1 := FetchAndCache(store, c1, symbol, expiry, Fetched(JObj(fields)), Written);
      var s2 := FetchAndCache(s1.store, c2, symbol, expiry, later, write);
      && (c2.ticks < c1.ticks + FreshnessWindow ==> s2 == CacheStep(s1.result, s1.store, None))
      && (c2.ticks >= c1.ticks + FreshnessWindow ==> s2.asked == Some(symbol))
  {
    MissStoresSnapshot(store, c1, symbol, expiry, fields);
  }

  /** For one symbol, different expiries name different cache files. */
  lemma ExpiryKeyInjective(symbol: string, e1: string, e2: string)
    requires CacheKey(symbol, e1) == CacheKey(symbol, e2)
    ensures e1 == e2
  {
    var p := symbol + "_";
    var k := CacheKey(symbol, e1);
    assert k == p + (e1 + ".json") && k == p + (e2 + ".json");
    assert |e1| == |e2|;
    assert e1 == k[|p|..|p| + |e1|];
    assert e2 == k[|p|..|p| + |e2|];
  }

  /** Two expiries of one symbol are cached independently: starting from
      an empty cache, both requests ask the provider for the same symbol;
      when both files open for writing, two entries are left, each holding
      its own stamped copy. */
  lemma TwoExpiriesTwoEntries(clock: Clock, symbol: string, e1: string, e2: string, fields: map<string, Json>)
    requires e1 != e2
    ensures var s1 := FetchAndCache(map[], clock, symbol, e1, Fetched(JObj(fields)), Written);
      var s2 := FetchAndCache(s1.store, clock, symbol, e2, Fetched(JObj(fields)), Written);
      && s1.asked == Some(symbol) && s2.asked == Some(symbol)
      && s2.store.Keys == {CacheKey(symbol, e1), CacheKey(symbol, e2)}
      && |s2.store| == 2
  {
    if CacheKey(symbol, e1) == CacheKey(symbol, e2) {
      ExpiryKeyInjective(symbol, e1, e2);
    }
    var s1 := FetchAndCache(map[], clock, symbol, e1, Fetched(JObj(fields)), Written);
    MissStoresSnapshot(map[], clock, symbol, e1, fields);
    MissStoresSnapshot(s1.store, clock, symbol, e2, fields);
  }

  /** Two different pairs can share a cache file when a symbol contains an
      underscore: `A_B` expiring `C` and `A` expiring `B_C` both use
      `A_B_C.json`. */
  lemma KeyCollision()
    ensures CacheKey("A_B", "C") == CacheKey("A", "B_C")
  {
  }

  /** Without underscores in symbols, the key determines the pair. */
  lemma KeyDeterminesPair(s1: string, e1: string, s2: string, e2: string)
    requires '_' !in s1 && '_' !in s2
    requires CacheKey(s1, e1) == CacheKey(s2, e2)
    ensures s1 == s2 && e1 == e2
  {
    var k := CacheKey(s1, e1);
    assert k == s1 + ("_" + e1 + ".json") && k[|s1|] == '_';
    assert k == s2 + ("_" + e2 + ".json") && k[|s2|] == '_';
    assert k[..|s1|] == s1 && k[..|s2|] == s2;
    assert s1 == s2;
    ExpiryKeyInjective(s1, e1, e2);
  }
}

=== FILE: dates.dfy ===
/** Parsing of exchange expiry strings with the format `%d-%b-%Y`
    (`datetime.strptime(x, "%d-%b-%Y")`), restricted to ASCII digits and
    the English three-letter month abbreviations. */
module Dates {
  import opened Wrappers

  /** A calendar date; compared as the tuple (year, month, day). */
  datatype Date = Date(year: int, month: int, day: int)

  /** Chronological order: `a` is strictly earlier than `b`. */
  predicate Before(a: Date, b: Date) {
    a.year < b.year
    || (a.year == b.year && a.month < b.month)
    || (a.year == b.year && a.month == b.month && a.day < b.day)
  }

  /** Gregorian leap years. */
  predicate IsLeap(y: int) {
    y % 4 == 0 && (y % 100 != 0 || y % 400 == 0)
  }

  function DaysInMonth(y: int, m: int): int
    requires 1 <= m <= 12
  {
    if m == 2 then (if IsLeap(y) then 29 else 28)
    else if m == 4 || m == 6 || m == 9 || m == 11 then 30
    else 31
  }

  /** What `datetime` accepts: years 1 to 9999 and a day that exists in
      its month. */
  predicate ValidDate(d: Date) {
    1 <= d.year <= 9999 && 1 <= d.month <= 12 && 1 <= d.day <= DaysInMonth(d.year, d.month)
  }

  predicate IsDigit(c: char) {
    '0' <= c <= '9'
  }

  function DigitValue(c: char): int
    requires IsDigit(c)
  {
    c as int - '0' as int
  }

  function DigitChar(v: int): char
    requires 0 <= v <= 9
  {
    ('0' as int + v) as char
  }

  /** The month abbreviations as `%b` matches them, lower-cased. */
  const MonthNames: seq<string> :=
    ["jan", "feb", "mar", "apr", "may", "jun", "jul", "aug", "sep", "oct", "nov", "dec"]

  /** The month abbreviations as the exchange writes them. */
  const MonthTitles: seq<string> :=
    ["Jan", "Feb", "Mar", "Apr", "May", "Jun", "Jul", "Aug", "Sep", "Oct", "Nov", "Dec"]

  /** ASCII lower-casing, the case-insensitive part of `%b` matching. */
  function Lower(c: char): char {
    if 'A' <= c <= 'Z' then (c as int + 32) as char else c
  }

  /** The ways the `%d` directive writes day `d`: two digits, or for days
      below ten also one digit or a space and one digit. */
  predicate DayForm(t: string, d: int)
    requires 1 <= d <= 31
  {
    t == [DigitChar(d / 10), DigitChar(d % 10)]
    || (d < 10 && (t == [DigitChar(d)] || t == [' ', DigitChar(d)]))
  }

  /** The day field: the alternatives `3[01]`, `[12]\d`, `0[1-9]`, `[1-9]`
      and space-then-`[1-9]` of the `%d` directive. */
  function ParseDay(t: string): (r: Option<int>)
    ensures r.Some? ==> 1 <= r.value <= 31 && DayForm(t, r.value)
  {
    if |t| == 1 && '1' <= t[0] <= '9' then Some(DigitValue(t[0]))
    else if |t| == 2 && (t[0] == ' ' || t[0] == '0') && '1' <= t[1] <= '9' then Some(DigitValue(t[1]))
    else if |t| == 2 && (t[0] == '1' || t[0] == '2') && IsDigit(t[1]) then Some(10 * DigitValue(t[0]) + DigitValue(t[1]))
    else if |t| == 2 && t[0] == '3' && (t[1] == '0' || t[1] == '1') then Some(30 + DigitValue(t[1]))
    else None
  }

  /** Conversely, every way of writing a day is read back as that day. */
  lemma DayFormParses(t: string, d: int)
    requires 1 <= d <= 31 && DayForm(t, d)
    ensures ParseDay(t) == Some(d)
  {
    DigitRoundTrip(d / 10);
    DigitRoundTrip(d % 10);
  }

  /** The position (1-based) of `t` among the month names from index `i` on. */
  function FindMonth(t: string, i: nat): (r: Option<int>)
    requires i <= 12
    ensures r.Some? ==> i < r.value <= 12 && MonthNames[r.value - 1] == t
    ensures r.None? ==> forall j :: i <= j < 12 ==> MonthNames[j] != t
    decreases 12 - i
  {
    if i == 12 then None
    else if MonthNames[i] == t then Some(i + 1)
    else FindMonth(t, i + 1)
  }

  /** The three letters of a month field, lower-cased. */
  function LowerMonth(t: string): string
    requires |t| == 3
  {
    [Lower(t[0]), Lower(t[1]), Lower(t[2])]
  }

  /** The month field: exactly three letters naming a month in any case. */
  function ParseMonth(t: string): (r: Option<int>)
    ensures r.Some? <==> |t| == 3 && LowerMonth(t) in MonthNames
    ensures r.Some? ==> 1 <= r.value <= 12 && MonthNames[r.value - 1] == LowerMonth(t)
  {
    if |t| == 3 then FindMonth(LowerMonth(t), 0) else None
  }

  /** The year field: exactly four digits, read as the year they spell. */
  function ParseYear(t: string): (r: Option<int>)
    ensures r.Some? <==> |t| == 4 && forall i :: 0 <= i < 4 ==> IsDigit(t[i])
    ensures r.Some? ==> 0 <= r.value <= 9999 && t == YearDigits(r.value)
  {
    if |t| == 4 && IsDigit(t[0]) && IsDigit(t[1]) && IsDigit(t[2]) && IsDigit(t[3]) then
      YearDigitsOf(DigitValue(t[0]), DigitValue(t[1]), DigitValue(t[2]), DigitValue(t[3]));
      Some(1000 * DigitValue(t[0]) + 100 * DigitValue(t[1]) + 10 * DigitValue(t[2]) + DigitValue(t[3]))
    else None
  }

  /** The four digits of a year are the digits it was built from. */
  lemma YearDigitsOf(a: int, b: int, c: int, d: int)
    requires 0 <= a <= 9 && 0 <= b <= 9 && 0 <= c <= 9 && 0 <= d <= 9
    ensures YearDigits(1000 * a + 100 * b + 10 * c + d)
         == [DigitChar(a), DigitChar(b), DigitChar(c), DigitChar(d)]
  {
    var y := 1000 * a + 100 * b + 10 * c + d;
    assert y / 10 == 100 * a + 10 * b + c;
    assert y / 10 / 10 == 10 * a + b;
    assert y / 10 / 10 / 10 == a;
  }

  /** `s` is one of the ways `%d-%b-%Y` writes `d`: a day form, a dash,
      the month's three letters in any case, a dash, four year digits. */
  predicate Spells(s: string, d: Date)
    requires ValidDate(d)
  {
    (|s| == 10 || |s| == 11)
    && var n := |s| - 9;
    DayForm(s[..n], d.day) && s[n] == '-' && LowerMonth(s[n + 1..n + 4]) == MonthNames[d.month - 1]
    && s[n + 4] == '-' && s[n + 5..] == YearDigits(d.year)
  }

  /** `datetime.strptime(s, "%d-%b-%Y")`: `None` where Python raises
      `ValueError`. The whole string must be consumed and the date must
      exist. */
  function ParseExpiry(s: string): (r: Option<Date>)
    ensures r.Some? ==> ValidDate(r.value) && Spells(s, r.value)
  {
    if |s| < 10 || |s| > 11 then None
    else
      var n := |s| - 9;
      if s[n] != '-' || s[n + 4] != '-' then None
      else
        match (ParseDay(s[..n]), ParseMonth(s[n + 1..n + 4]), ParseYear(s[n + 5..]))
        case (Some(d), Some(m), Some(y)) =>
          if ValidDate(Date(y, m, d)) then Some(Date(y, m, d)) else None
        case _ => None
  }

  /** A year in four digits, most significant first. */
  function YearDigits(y: int): string
    requires 0 <= y <= 9999
  {
    [DigitChar(y / 10 / 10 / 10), DigitChar(y / 10 / 10 % 10), DigitChar(y / 10 % 10), DigitChar(y % 10)]
  }

  /** The exchange's rendering of a date: two-digit day, title-case month,
      four-digit year, as in `07-Nov-2024`. */
  function FormatExpiry(d: Date): string
    requires ValidDate(d)
  {
    [DigitChar(d.day / 10), DigitChar(d.day % 10), '-']
    + MonthTitles[d.month - 1] + "-"
    + YearDigits(d.year)
  }

  /** How a string of the expected shape is taken apart: the day before
      the first dash, three month letters, four year characters. */
  lemma ParseShape(dd: string, mm: string, yy: string)
    requires 1 <= |dd| <= 2 && |mm| == 3 && |yy| == 4
    ensures var s := dd + "-" + mm + "-" + yy;
      ParseExpiry(s) ==
        match (ParseDay(dd), ParseMonth(mm), ParseYear(yy))
        case (Some(d), Some(m), Some(y)) =>
          if ValidDate(Date(y, m, d)) then Some(Date(y, m, d)) else None
        case _ => None
  {
    var s := dd + "-" + mm + "-" + yy;
    var n := |dd|;
    assert s[..n] == dd && s[n] == '-' && s[n + 1..n + 4] == mm && s[n + 4] == '-' && s[n + 5..] == yy;
  }

  lemma DigitRoundTrip(v: int)
    requires 0 <= v <= 9
    ensures IsDigit(DigitChar(v)) && DigitValue(DigitChar(v)) == v
  {
  }

  lemma DayRoundTrip(day: int)
    requires 1 <= day <= 31
    ensures ParseDay([DigitChar(day / 10), DigitChar(day % 10)]) == Some(day)
  {
    DigitRoundTrip(day / 10);
    DigitRoundTrip(day % 10);
  }

  lemma YearRoundTrip(y: int)
    requires 0 <= y <= 9999
    ensures ParseYear(YearDigits(y)) == Some(y)
  {
    var q1 := y / 10;
    var q2 := q1 / 10;
    var q3 := q2 / 10;
    assert y == 10 * q1 + y % 10;
    assert q1 == 10 * q2 + q1 % 10;
    assert q2 == 10 * q3 + q2 % 10;
    assert q3 < 10;
    DigitRoundTrip(q3);
    DigitRoundTrip(q2 % 10);
    DigitRoundTrip(q1 % 10);
    DigitRoundTrip(y % 10);
  }

  /** Lower-casing an exchange month title gives its `%b` name. */
  lemma LowerTitle(m: int)
    requires 1 <= m <= 12
    ensures LowerMonth(MonthTitles[m - 1]) == MonthNames[m - 1]
  {
  }

  lemma MonthNamesDistinct()
    ensures forall i, j :: 0 <= i < j < 12 ==> MonthNames[i] != MonthNames[j]
  {
  }

  /** Three letters whose lower case is a month's name are read as that
      month. */
  lemma MonthSpelled(t: string, m: int)
    requires |t| == 3 && 1 <= m <= 12 && LowerMonth(t) == MonthNames[m - 1]
    ensures ParseMonth(t) == Some(m)
  {
    MonthNamesDistinct();
    var r := ParseMonth(t);
    assert r.Some?;
    assert MonthNames[r.value - 1] == MonthNames[m - 1];
  }

  lemma MonthRoundTrip(m: int)
    requires 1 <= m <= 12
    ensures ParseMonth(MonthTitles[m - 1]) == Some(m)
  {
    LowerTitle(m);
    MonthSpelled(MonthTitles[m - 1], m);
  }

  /** Every valid date, written as the exchange writes it, parses back to
      itself. */
  lemma ParseFormat(d: Date)
    requires ValidDate(d)
    ensures ParseExpiry(FormatExpiry(d)) == Some(d)
  {
    var dd := [DigitChar(d.day / 10), DigitChar(d.day % 10)];
    var yy := YearDigits(d.year);
    assert FormatExpiry(d) == dd + "-" + MonthTitles[d.month - 1] + "-" + yy;
    ParseShape(dd, MonthTitles[d.month - 1], yy);
    DayRoundTrip(d.day);
    MonthRoundTrip(d.month);
    YearRoundTrip(d.year);
  }

  /** The parse is exact: `s` parses to `d` if and only if `d` is a
      valid date and `s` is one of the ways `%d-%b-%Y` writes it. */
  lemma ParseExactly(s: string, d: Date)
    ensures ParseExpiry(s) == Some(d) <==> ValidDate(d) && Spells(s, d)
  {
    if ValidDate(d) && Spells(s, d) {
      var n := |s| - 9;
      DayFormParses(s[..n], d.day);
      MonthSpelled(s[n + 1..n + 4], d.month);
      YearRoundTrip(d.year);
    }
  }

  /** Single-digit and space-padded days, any letter case. */
  lemma ParseLooseForms()
    ensures ParseExpiry("5-jan-2025") == Some(Date(2025, 1, 5))
    ensures ParseExpiry(" 5-JAN-2025") == Some(Date(2025, 1, 5))
  {
    assert ParseMonth("jan") == Some(1) && ParseMonth("JAN") == Some(1);
    assert ParseYear("2025") == Some(2025);
    ParseShape("5", "jan", "2025");
    ParseShape(" 5", "JAN", "2025");
    assert "5" + "-" + "jan" + "-" + "2025" == "5-jan-2025";
    assert " 5" + "-" + "JAN" + "-" + "2025" == " 5-JAN-2025";
  }

  /** The 29th of February exists in a leap year... */
  lemma ParseLeapDay()
    ensures ParseExpiry("29-Feb-2024") == Some(Date(2024, 2, 29))
  {
    assert ParseMonth("Feb") == Some(2);
    assert ParseYear("2024") == Some(2024);
    ParseShape("29", "Feb", "2024");
    assert "29" + "-" + "Feb" + "-" + "2024" == "29-Feb-2024";
  }

  /** ...and in no other. */
  lemma ParseRejectsNonLeapDay()
    ensures ParseExpiry("29-Feb-2023") == None
  {
    assert ParseMonth("Feb") == Some(2);
    assert ParseYear("2023") == Some(2023);
    ParseShape("29", "Feb", "2023");
    assert "29" + "-" + "Feb" + "-" + "2023" == "29-Feb-2023";
  }

  /** Day zero is not matched by the day field. */
  lemma ParseRejectsDayZero()
    ensures ParseExpiry("00-Jan-2025") == None
  {
    ParseShape("00", "Jan", "2025");
    assert "00" + "-" + "Jan" + "-" + "2025" == "00-Jan-2025";
  }

  /** Year zero matches the year field but is not a `datetime` year. */
  lemma ParseRejectsYearZero()
    ensures ParseExpiry("01-Jan-0000") == None
  {
    assert ParseYear("0000") == Some(0);
    ParseShape("01", "Jan", "0000");
    assert "01" + "-" + "Jan" + "-" + "0000" == "01-Jan-0000";
  }

  /** The whole string must match: a full month name or a two-digit year
      is refused. */
  lemma ParseRejectsOtherLayouts()
    ensures ParseExpiry("28-November-2024") == None
    ensures ParseExpiry("28-Nov-24") == None
  {
  }
}

=== FILE: expiries.dfy ===
/** The expiry list handler (`get_expiries`): the provider's expiry strings
    sorted chronologically by their parsed date, or nothing at all when any
    of them does not parse. */
module Expiries {
  import opened Wrappers
  import opened Json
  import opened Dates

  /** Every string is an expiry date. */
  predicate AllParse(xs: seq<string>) {
    forall i :: 0 <= i < |xs| ==> ParseExpiry(xs[i]).Some?
  }

  /** The sort key of a string: its parsed date. */
  function Key(s: string): Date {
    ParseExpiry(s).GetOr(Date(0, 0, 0))
  }

  /* The sorting machinery takes the key as a parameter (the handler passes
     `Key`), so that its proofs do not depend on how dates are parsed. */

  /** Non-decreasing by date. */
  predicate SortedByDate(xs: seq<string>, key: string -> Date) {
    forall i, j :: 0 <= i < j < |xs| ==> !Before(key(xs[j]), key(xs[i]))
  }

  /** The strings of `xs` that fall on date `d`, in their order in `xs`. */
  function OnDate(xs: seq<string>, d: Date, key: string -> Date): seq<string>
    decreases |xs|
  {
    if |xs| == 0 then []
    else OnDate(xs[..|xs| - 1], d, key) + (if key(xs[|xs| - 1]) == d then [xs[|xs| - 1]] else [])
  }

  /** Places `x` after every element not later than it. */
  function Insert(s: seq<string>, x: string, key: string -> Date): (r: seq<string>)
    requires SortedByDate(s, key)
    ensures |r| == |s| + 1
    ensures r[0] == x || (|s| > 0 && r[0] == s[0])
    ensures SortedByDate(r, key)
    ensures multiset(r) == multiset(s) + multiset{x}
    decreases |s|
  {
    if |s| == 0 then [x]
    else if Before(key(x), key(s[0])) then
      NotBeforeHead(key(x), s, key);
      SortedCons(x, s, key);
      [x] + s
    else
      var t := Insert(s[1..], x, key);
      assert !Before(key(t[0]), key(s[0]));
      NotBeforeHead(key(s[0]), t, key);
      SortedCons(s[0], t, key);
      assert s == [s[0]] + s[1..];
      [s[0]] + t
  }

  /** Putting in front an element not later than any other keeps a list
      sorted. */
  lemma SortedCons(y: string, t: seq<string>, key: string -> Date)
    requires SortedByDate(t, key)
    requires forall j :: 0 <= j < |t| ==> !Before(key(t[j]), key(y))
    ensures SortedByDate([y] + t, key)
  {
    var r := [y] + t;
    forall i, j | 0 <= i < j < |r|
      ensures !Before(key(r[j]), key(r[i]))
    {
      if i > 0 {
        assert r[i] == t[i - 1] && r[j] == t[j - 1];
      } else {
        assert r[j] == t[j - 1];
      }
    }
  }

  /** Nothing in a list sorted by date is before a date its head is not
      before. */
  lemma NotBeforeHead(y: Date, t: seq<string>, key: string -> Date)
    requires SortedByDate(t, key) && |t| > 0 && !Before(key(t[0]), y)
    ensures forall j :: 0 <= j < |t| ==> !Before(key(t[j]), y)
  {
  }

  /** Insertion sort by date, taking the elements in input order. */
  function StableSort(xs: seq<string>, key: string -> Date): (r: seq<string>)
    ensures SortedByDate(r, key)
    ensures multiset(r) == multiset(xs)
    decreases |xs|
  {
    if |xs| == 0 then []
    else
      var init := xs[..|xs| - 1];
      assert xs == init + [xs[|xs| - 1]];
      Insert(StableSort(init, key), xs[|xs| - 1], key)
  }

  /** `sorted(raw, key=lambda x: strptime(x, "%d-%b-%Y"))` inside the
      handler's `try`: every key is computed first, so a single string that
      does not parse makes the whole answer empty. */
  function SortExpiries(xs: seq<string>): (r: seq<string>)
    ensures AllParse(xs) ==> multiset(r) == multiset(xs) && SortedByDate(r, Key)
    ensures !AllParse(xs) ==> r == []
  {
    if AllParse(xs) then StableSort(xs, Key) else []
  }

  /** The strings carried by a list of JSON strings. */
  function Strings(items: seq<Json>): (r: seq<string>)
    requires forall i :: 0 <= i < |items| ==> items[i].JStr?
    ensures |r| == |items| && forall i :: 0 <= i < |items| ==> items[i] == JStr(r[i])
  {
    seq(|items|, i requires 0 <= i < |items| => items[i].s)
  }

  /** `get_expiries`: `raw` is `None` when the provider call or the
      `["records"]["expiryDates"]` lookup raised, and otherwise the values
      that sorting iterates over. A non-string value makes `strptime`
      raise, which empties the answer like a date that does not parse. */
  function ExpiriesResponse(raw: Option<seq<Json>>): (r: seq<string>)
    ensures raw.None? ==> r == []
    ensures raw.Some? && (exists i :: 0 <= i < |raw.value| && !raw.value[i].JStr?) ==> r == []
    ensures raw.Some? && (forall i :: 0 <= i < |raw.value| ==> raw.value[i].JStr?) ==>
              r == SortExpiries(Strings(raw.value))
  {
    match raw
    case None => []
    case Some(items) =>
      if forall i :: 0 <= i < |items| ==> items[i].JStr? then SortExpiries(Strings(items)) else []
  }

  lemma {:induction false} OnDateAppend(a: seq<string>, b: seq<string>, d: Date, key: string -> Date)
    ensures OnDate(a + b, d, key) == OnDate(a, d, key) + OnDate(b, d, key)
    decreases |b|
  {
    if |b| > 0 {
      var b' := b[..|b| - 1];
      assert (a + b)[..|a + b| - 1] == a + b';
      OnDateAppend(a, b', d, key);
    } else {
      assert a + b == a;
    }
  }

  lemma {:induction false} OnDateNone(s: seq<string>, d: Date, key: string -> Date)
    requires forall i :: 0 <= i < |s| ==> key(s[i]) != d
    ensures OnDate(s, d, key) == []
    decreases |s|
  {
    if |s| > 0 {
      OnDateNone(s[..|s| - 1], d, key);
    }
  }

  lemma OnDateSingle(x: string, d: Date, key: string -> Date)
    ensures OnDate([x], d, key) == (if key(x) == d then [x] else [])
  {
    assert [x][..0] == [];
  }

  /** Inserting `x` puts it after every element already on its date. */
  lemma {:induction false} InsertStable(s: seq<string>, x: string, d: Date, key: string -> Date)
    requires SortedByDate(s, key)
    ensures OnDate(Insert(s, x, key), d, key) == OnDate(s, d, key) + (if key(x) == d then [x] else [])
    decreases |s|
  {
    if |s| == 0 {
      OnDateSingle(x, d, key);
      assert OnDate(s, d, key) == [];
    } else if Before(key(x), key(s[0])) {
      InsertStableFront(s, x, d, key);
    } else {
      InsertStable(s[1..], x, d, key);
      InsertStableBehind(s, x, d, key);
    }
  }

  /** `x` goes in front of a list whose every element is later. */
  lemma InsertStableFront(s: seq<string>, x: string, d: Date, key: string -> Date)
    requires SortedByDate(s, key) && |s| > 0 && Before(key(x), key(s[0]))
    ensures OnDate(Insert(s, x, key), d, key) == OnDate(s, d, key) + (if key(x) == d then [x] else [])
  {
    assert Insert(s, x, key) == [x] + s;
    OnDateSingle(x, d, key);
    OnDateAppend([x], s, d, key);
    if key(x) == d {
      NotBeforeHead(key(s[0]), s, key);
      OnDateNone(s, d, key);
    }
  }

  /** `x` goes behind the head, given the claim for the tail. */
  lemma InsertStableBehind(s: seq<string>, x: string, d: Date, key: string -> Date)
    requires SortedByDate(s, key) && |s| > 0 && !Before(key(x), key(s[0]))
    requires OnDate(Insert(s[1..], x, key), d, key) == OnDate(s[1..], d, key) + (if key(x) == d then [x] else [])
    ensures OnDate(Insert(s, x, key), d, key) == OnDate(s, d, key) + (if key(x) == d then [x] else [])
  {
    var t := Insert(s[1..], x, key);
    var tail := if key(x) == d then [x] else [];
    var head := OnDate([s[0]], d, key);
    assert Insert(s, x, key) == [s[0]] + t;
    assert [s[0]] + s[1..] == s;
    calc {
      OnDate([s[0]] + t, d, key);
    == { OnDateAppend([s[0]], t, d, key); }
      head + OnDate(t, d, key);
    ==
      head + (OnDate(s[1..], d, key) + tail);
    ==
      (head + OnDate(s[1..], d, key)) + tail;
    == { OnDateAppend([s[0]], s[1..], d, key); }
      OnDate(s, d, key) + tail;
    }
  }

  /** Sorting keeps, for every date, the strings on that date in their
      input order. */
  lemma {:induction false} StableSortStable(xs: seq<string>, d: Date, key: string -> Date)
    ensures OnDate(StableSort(xs, key), d, key) == OnDate(xs, d, key)
    decreases |xs|
  {
    if |xs| > 0 {
      var init := xs[..|xs| - 1];
      StableSortStable(init, d, key);
      InsertStable(StableSort(init, key), xs[|xs| - 1], d, key);
    }
  }

  /** When every string parses, the answer is a permutation of the input,
      non-decreasing by date, with same-date strings in input order; when
      one does not, the answer is empty. */
  lemma SortExpiriesStable(xs: seq<string>, d: Date)
    requires AllParse(xs)
    ensures multiset(SortExpiries(xs)) == multiset(xs)
    ensures SortedByDate(SortExpiries(xs), Key)
    ensures OnDate(SortExpiries(xs), d, Key) == OnDate(xs, d, Key)
  {
    StableSortStable(xs, d, Key);
  }

  /** What the filter keeps: elements of the list, on the date asked for. */
  lemma {:induction false} OnDateMembers(s: seq<string>, d: Date, key: string -> Date)
    ensures forall z :: z in OnDate(s, d, key) ==> z in s && key(z) == d
    decreases |s|
  {
    if |s| > 0 {
      OnDateMembers(s[..|s| - 1], d, key);
      assert forall z :: z in s[..|s| - 1] ==> z in s;
    }
  }

  /** The last element of a list ends the filter for its own date. */
  lemma OnDateLast(s: seq<string>, key: string -> Date)
    requires |s| > 0
    ensures var last := s[|s| - 1];
      OnDate(s, key(last), key) == OnDate(s[..|s| - 1], key(last), key) + [last]
  {
  }

  lemma OnDateLastNonEmpty(s: seq<string>, key: string -> Date)
    ensures |s| > 0 ==> OnDate(s, key(s[|s| - 1]), key) != []
  {
    if |s| > 0 {
      OnDateLast(s, key);
    }
  }

  /** The last element of a list sorted by date has the latest date. */
  lemma LastIsLatest(s: seq<string>, z: string, key: string -> Date)
    requires SortedByDate(s, key) && |s| > 0 && z in s
    ensures !Before(key(s[|s| - 1]), key(z))
  {
    var i :| 0 <= i < |s| && s[i] == z;
    if i < |s| - 1 {
      assert !Before(key(s[|s| - 1]), key(s[i]));
    }
  }

  /** The last elements of two nonempty lists sorted by date are on the
      same date when the lists agree on both of those dates. */
  lemma LatestDatesAgree(a: seq<string>, b: seq<string>, key: string -> Date)
    requires SortedByDate(a, key) && SortedByDate(b, key) && |a| > 0 && |b| > 0
    requires OnDate(a, key(a[|a| - 1]), key) == OnDate(b, key(a[|a| - 1]), key)
    requires OnDate(a, key(b[|b| - 1]), key) == OnDate(b, key(b[|b| - 1]), key)
    ensures key(a[|a| - 1]) == key(b[|b| - 1])
  {
    var x, y := a[|a| - 1], b[|b| - 1];
    OnDateLast(a, key);
    OnDateLast(b, key);
    OnDateMembers(a, key(y), key);
    OnDateMembers(b, key(x), key);
    assert y in OnDate(b, key(y), key);
    assert x in OnDate(a, key(x), key);
    LastIsLatest(a, y, key);
    LastIsLatest(b, x, key);
  }

  /** Two nonempty lists sorted by date that agree on the dates of their
      last elements end in the same element. */
  lemma LastAgree(a: seq<string>, b: seq<string>, key: string -> Date)
    requires SortedByDate(a, key) && SortedByDate(b, key) && |a| > 0 && |b| > 0
    requires OnDate(a, key(a[|a| - 1]), key) == OnDate(b, key(a[|a| - 1]), key)
    requires OnDate(a, key(b[|b| - 1]), key) == OnDate(b, key(b[|b| - 1]), key)
    ensures a[|a| - 1] == b[|b| - 1]
  {
    var x, y := a[|a| - 1], b[|b| - 1];
    LatestDatesAgree(a, b, key);
    OnDateLast(a, key);
    OnDateLast(b, key);
    var fa, fb := OnDate(a[..|a| - 1], key(x), key), OnDate(b[..|b| - 1], key(x), key);
    assert fa + [x] == fb + [y];
    assert x == (fa + [x])[|fa|] && y == (fb + [y])[|fb|];
  }

  /** Dropping the same last element keeps the per-date filters equal. */
  lemma DropLast(a: seq<string>, b: seq<string>, x: string, key: string -> Date)
    requires forall d :: OnDate(a + [x], d, key) == OnDate(b + [x], d, key)
    ensures forall d :: OnDate(a, d, key) == OnDate(b, d, key)
  {
    forall d
      ensures OnDate(a, d, key) == OnDate(b, d, key)
    {
      var tail := if key(x) == d then [x] else [];
      assert (a + [x])[..|a|] == a && (b + [x])[..|b|] == b;
      assert OnDate(a + [x], d, key) == OnDate(a, d, key) + tail;
      assert OnDate(b + [x], d, key) == OnDate(b, d, key) + tail;
      assert OnDate(a, d, key) == (OnDate(a, d, key) + tail)[..|OnDate(a, d, key)|];
      assert OnDate(b, d, key) == (OnDate(b, d, key) + tail)[..|OnDate(b, d, key)|];
    }
  }

  lemma SortedPrefix(s: seq<string>, key: string -> Date)
    requires SortedByDate(s, key) && |s| > 0
    ensures SortedByDate(s[..|s| - 1], key)
  {
  }

  /** Two lists sorted by date that hold, date by date, the same elements in
      the same order are the same list. */
  lemma {:induction false} SortedUnique(a: seq<string>, b: seq<string>, key: string -> Date)
    requires SortedByDate(a, key) && SortedByDate(b, key)
    requires forall d :: OnDate(a, d, key) == OnDate(b, d, key)
    ensures a == b
    decreases |a|
  {
    if |a| > 0 && |b| > 0 {
      var a', b', x, y := a[..|a| - 1], b[..|b| - 1], a[|a| - 1], b[|b| - 1];
      assert OnDate(a, key(x), key) == OnDate(b, key(x), key);
      assert OnDate(a, key(y), key) == OnDate(b, key(y), key);
      LastAgree(a, b, key);
      assert a == a' + [x] && b == b' + [x];
      DropLast(a', b', x, key);
      SortedPrefix(a, key);
      SortedPrefix(b, key);
      SortedUnique(a', b', key);
    } else {
      OnDateLastNonEmpty(a, key);
      OnDateLastNonEmpty(b, key);
    }
  }

  /** The answer is the only date-sorted list that keeps every date's
      strings in input order, so every stable sort, Python's included,
      produces exactly it. */
  lemma SortExpiriesUnique(xs: seq<string>, r: seq<string>)
    requires AllParse(xs)
    requires SortedByDate(r, Key)
    requires forall d :: OnDate(r, d, Key) == OnDate(xs, d, Key)
    ensures SortExpiries(xs) == r
  {
    forall d
      ensures OnDate(SortExpiries(xs), d, Key) == OnDate(r, d, Key)
    {
      StableSortStable(xs, d, Key);
    }
    SortedUnique(SortExpiries(xs), r, Key);
  }
}

=== FILE: json.dfy ===
/** The JSON values exchanged with the options-chain provider and kept in
    the cache files, together with Python's truthiness test on them. */
module Json {

  /** A decoded JSON document. Objects are maps: key order, which Python
      dictionaries keep, plays no part in the modelled decisions. Numbers are
      integers; floating point is not modelled. */
  datatype Json =
    | JNull
    | JBool(b: bool)
    | JNum(n: int)
    | JStr(s: string)
    | JArr(items: seq<Json>)
    | JObj(fields: map<string, Json>)

  /** Python's `bool(v)` for the decoded value: `None`, `False`, `0`, and
      empty strings, lists and dictionaries are falsy; everything else is
      truthy. */
  predicate Truthy(v: Json) {
    match v
    case JNull => false
    case JBool(b) => b
    case JNum(n) => n != 0
    case JStr(s) => |s| > 0
    case JArr(items) => |items| > 0
    case JObj(fields) => |fields| > 0
  }
}

=== FILE: lex.dfy ===
/** Python's ordering of `str` values: lexicographic comparison of code
    points, a proper prefix sorting before its extensions. Dafny's `<` on
    `char` compares code points, so `Below` is exactly Python's `a < b`. */
module Lex {

  /** Python's `a < b` on strings. */
  predicate Below(a: string, b: string)
    decreases |a|
  {
    if |a| == 0 then |b| > 0
    else if |b| == 0 then false
    else if a[0] != b[0] then a[0] < b[0]
    else Below(a[1..], b[1..])
  }

  lemma {:induction false} BelowIrreflexive(a: string)
    ensures !Below(a, a)
    decreases |a|
  {
    if |a| > 0 {
      BelowIrreflexive(a[1..]);
    }
  }

  lemma {:induction false} BelowAsymmetric(a: string, b: string)
    requires Below(a, b)
    ensures !Below(b, a)
    decreases |a|
  {
    if |a| > 0 && |b| > 0 && a[0] == b[0] {
      BelowAsymmetric(a[1..], b[1..]);
    }
  }

  lemma {:induction false} BelowTransitive(a: string, b: string, c: string)
    requires Below(a, b) && Below(b, c)
    ensures Below(a, c)
    decreases |a|
  {
    if |a| > 0 && a[0] == b[0] && b[0] == c[0] {
      BelowTransitive(a[1..], b[1..], c[1..]);
    }
  }

  /** Any two different strings are ordered one way or the other. */
  lemma {:induction false} BelowTotal(a: string, b: string)
    requires a != b
    ensures Below(a, b) || Below(b, a)
    decreases |a|
  {
    if |a| > 0 && |b| > 0 && a[0] == b[0] {
      assert a == [a[0]] + a[1..] && b == [b[0]] + b[1..];
      BelowTotal(a[1..], b[1..]);
    }
  }
}

=== FILE: pipeline.dfy ===
/** The analysis request (`stream_analysis`): the cache is asked for the
    snapshot, and the model's streamed answer is relayed only when a truthy
    snapshot came back. */
module Pipeline {
  import opened Wrappers
  import opened Json
  import Cache
  import Stream
  import SseClient

  /** The single event sent when no usable snapshot is available. */
  function FetchErrorEvent(): string {
    Stream.Frame("Error fetching data")
  }

  /** The response body for a cache result: the fetch-error event when the
      result is `None` or falsy, the relayed analysis otherwise. */
  function StreamAnalysis(cached: Option<Json>, reply: Stream.Reply): (events: seq<string>)
    ensures cached.None? || !Truthy(cached.value) ==> events == [FetchErrorEvent()]
    ensures cached.Some? && Truthy(cached.value) ==> events == Stream.Events(reply)
    ensures events == [FetchErrorEvent()] ==> cached.None? || !Truthy(cached.value)
  {
    if cached.Some? && Truthy(cached.value) then
      var e := Stream.Events(reply);
      FetchErrorIsNoClosing(reply.ending);
      e
    else [FetchErrorEvent()]
  }

  /** A client reading the fetch-error answer receives one message, the
      error text, and nothing else. */
  lemma FetchErrorReceived()
    ensures SseClient.Messages(SseClient.Body([FetchErrorEvent()])) == ["Error fetching data"]
  {
    var e := [FetchErrorEvent()];
    assert SseClient.Body(e) == FetchErrorEvent() + "" by { assert e[1..] == []; }
    SseClient.MessagesFrame("Error fetching data", "");
    assert SseClient.Messages("") == [];
  }

  /** The fetch-error event is neither the sentinel nor an analysis error,
      so a client can tell the three endings apart. */
  lemma FetchErrorIsNoClosing(ending: Stream.Ending)
    ensures FetchErrorEvent() != Stream.EndEvent()
    ensures ending.Raised? ==> FetchErrorEvent() != Stream.ErrorEvent(ending.message)
  {
    Stream.UnframeFrame("Error fetching data");
    Stream.UnframeFrame(Stream.EndPayload);
    if ending.Raised? {
      var p := Stream.GeminiErrorPrefix + ending.message;
      Stream.UnframeFrame(p);
      assert p[..13] == "Error analyzi";
      assert "Error fetching data"[..13] == "Error fetchin";
    }
  }

  /** One whole request: the cache step, then the response body. */
  function Handle(store: Cache.Store, clock: Cache.Clock, symbol: string, expiry: string,
                  fetched: Cache.Fetched, write: Cache.WriteOutcome, reply: Stream.Reply)
    : (out: (seq<string>, Cache.Store))
    ensures out.0 == [FetchErrorEvent()] || out.0 == Stream.Events(reply)
    ensures out.0 == [FetchErrorEvent()] ==> out.1 == store
    ensures store.Keys <= out.1.Keys
  {
    var step := Cache.FetchAndCache(store, clock, symbol, expiry, fetched, write);
    (StreamAnalysis(step.result, reply), step.store)
  }

  /** A provider failure on a miss yields exactly the fetch-error event and
      leaves the cache as it was. */
  lemma MissFailureSingleEvent(store: Cache.Store, clock: Cache.Clock, symbol: string, expiry: string,
                               write: Cache.WriteOutcome, reply: Stream.Reply)
    requires var key := Cache.CacheKey(symbol, expiry); key !in store || !Cache.Fresh(store[key], clock.ticks)
    ensures Handle(store, clock, symbol, expiry, Cache.FetchFailed, write, reply) == ([FetchErrorEvent()], store)
  {
    Cache.FailureLeavesStore(store, clock, symbol, expiry, Cache.FetchFailed, write);
  }

  /** On a miss, a cache file that cannot be opened for writing turns even
      a successful fetch into the fetch-error event, and the cache stays as
      it was. */
  lemma MissWriteFailureSingleEvent(store: Cache.Store, clock: Cache.Clock, symbol: string, expiry: string,
                                    fetched: Cache.Fetched, reply: Stream.Reply)
    requires var key := Cache.CacheKey(symbol, expiry); key !in store || !Cache.Fresh(store[key], clock.ticks)
    ensures Handle(store, clock, symbol, expiry, fetched, Cache.WriteFailed, reply) == ([FetchErrorEvent()], store)
  {
    Cache.WriteFailureLeavesStore(store, clock, symbol, expiry, fetched);
  }

  /** A freshly fetched snapshot whose file opened for writing is always
      truthy (it holds at least the timestamp field), so the analysis is
      relayed. */
  lemma MissSuccessRelays(store: Cache.Store, clock: Cache.Clock, symbol: string, expiry: string,
                          fields: map<string, Json>, reply: Stream.Reply)
    requires var key := Cache.CacheKey(symbol, expiry); key !in store || !Cache.Fresh(store[key], clock.ticks)
    ensures Handle(store, clock, symbol, expiry, Cache.Fetched(JObj(fields)), Cache.Written, reply).0
         == Stream.Events(reply)
  {
    Cache.MissStoresSnapshot(store, clock, symbol, expiry, fields);
    var snapshot := JObj(fields[Cache.TimestampField := JStr(clock.iso)]);
    assert Cache.TimestampField in snapshot.fields;
  }

  /** On a fresh hit the stored content decides: truthy content is
      analysed, falsy content gives the fetch-error event, and in both cases
      the cache is untouched whatever the provider would have said. */
  lemma HitDependsOnStoredContent(store: Cache.Store, clock: Cache.Clock, symbol: string, expiry: string,
                                  fetched: Cache.Fetched, write: Cache.WriteOutcome, reply: Stream.Reply)
    requires var key := Cache.CacheKey(symbol, expiry); key in store && Cache.Fresh(store[key], clock.ticks)
    ensures var out := Handle(store, clock, symbol, expiry, fetched, write, reply);
      var content := store[Cache.CacheKey(symbol, expiry)].content;
      && out.1 == store
      && (Truthy(content) ==> out.0 == Stream.Events(reply))
      && (!Truthy(content) ==> out.0 == [FetchErrorEvent()])
  {
    Cache.FreshHit(store, clock, symbol, expiry, fetched, write);
  }
}

=== FILE: sse_client.dfy ===
/** What a `text/event-stream` client makes of a response body. Flask
    sends the yielded strings as one body, so event boundaries are found
    again by parsing, as section 9.2.6 ("Interpreting an event stream") of
    the HTML Living Standard describes, restricted to the `data` field. */
module SseClient {
  import opened Wrappers
  import opened Stream

  /** The response body: the yielded strings, one after another. */
  function Body(events: seq<string>): string
    decreases |events|
  {
    if |events| == 0 then "" else events[0] + Body(events[1..])
  }

  predicate IsBreak(c: char) {
    c == '\n' || c == '\r'
  }

  predicate NoBreaks(t: string) {
    forall i :: 0 <= i < |t| ==> !IsBreak(t[i])
  }

  /** The complete lines of `body`, where `line` holds what has been read
      of the current line. A line ends at LF, CR, or CR LF; an unfinished
      last line is discarded when the body ends. */
  function Lines(body: string, line: string): seq<string>
    decreases |body|
  {
    if |body| == 0 then []
    else if body[0] == '\n' then [line] + Lines(body[1..], "")
    else if body[0] == '\r' then
      [line] + Lines(if |body| > 1 && body[1] == '\n' then body[2..] else body[1..], "")
    else Lines(body[1..], line + [body[0]])
  }

  /** The value of a `data` field line. The field name is what precedes
      the first colon (the whole line if there is none), and one space
      after the colon is dropped. */
  function DataValue(line: string): (r: Option<string>)
    ensures r.Some? <==> line == "data" || (|line| >= 5 && line[..5] == "data:")
    ensures line == "data" ==> r == Some("")
    ensures |line| >= 6 && line[..6] == "data: " ==> r == Some(line[6..])
    ensures |line| >= 5 && line[..5] == "data:" && (|line| == 5 || line[5] != ' ') ==> r == Some(line[5..])
  {
    if line == "data" then Some("")
    else if |line| >= 5 && line[..5] == "data:" then
      if |line| > 5 && line[5] == ' ' then
        assert line == "data: " + line[6..];
        Some(line[6..])
      else
        assert line == "data:" + line[5..];
        Some(line[5..])
    else None
  }

  /** The data of the messages dispatched for `lines`, `buffer` holding
      the data read so far: a data line appends its value and a line
      feed; a blank line dispatches a non-empty buffer less its final line
      feed; comments and other fields leave the data alone. */
  function Dispatch(lines: seq<string>, buffer: string): seq<string>
    decreases |lines|
  {
    if |lines| == 0 then []
    else if lines[0] == "" then
      if buffer == "" then Dispatch(lines[1..], "")
      else
        var data := if buffer[|buffer| - 1] == '\n' then buffer[..|buffer| - 1] else buffer;
        [data] + Dispatch(lines[1..], "")
    else
      match DataValue(lines[0])
      case Some(v) => Dispatch(lines[1..], buffer + v + "\n")
      case None => Dispatch(lines[1..], buffer)
  }

  /** The data of every message a client receives from `body`. */
  function Messages(body: string): seq<string> {
    Dispatch(Lines(body, ""), "")
  }

  /** Characters other than line breaks only extend the current line. */
  lemma {:induction false} LinesPlain(s: string, rest: string, line: string)
    requires NoBreaks(s)
    ensures Lines(s + rest, line) == Lines(rest, line + s)
    decreases |s|
  {
    if |s| == 0 {
      assert s + rest == rest;
      assert line + s == line;
    } else {
      assert (s + rest)[0] == s[0];
      assert (s + rest)[1..] == s[1..] + rest;
      assert !IsBreak(s[0]);
      LinesPlain(s[1..], rest, line + [s[0]]);
      assert line + [s[0]] + s[1..] == line + s;
    }
  }

  /** A frame whose payload has no line break is one data line and one
      blank line. */
  lemma LinesFrame(t: string, rest: string)
    requires NoBreaks(t)
    ensures Lines(Frame(t) + rest, "") == ["data: " + t, ""] + Lines(rest, "")
  {
    var head := "data: " + t;
    assert NoBreaks(head) by {
      forall i | 0 <= i < |head|
        ensures !IsBreak(head[i])
      {
        if i >= 6 {
          assert head[i] == t[i - 6];
        }
      }
    }
    assert Frame(t) + rest == head + ("\n\n" + rest);
    LinesPlain(head, "\n\n" + rest, "");
    assert "" + head == head;
    assert ("\n\n" + rest)[1..] == "\n" + rest;
    assert ("\n" + rest)[1..] == rest;
  }

  /** The message data read from a frame, then those after it. */
  lemma MessagesFrame(t: string, rest: string)
    requires NoBreaks(t)
    ensures Messages(Frame(t) + rest) == [t] + Messages(rest)
  {
    LinesFrame(t, rest);
    var lines := ["data: " + t, ""] + Lines(rest, "");
    assert DataValue("data: " + t) == Some(t) by {
      var line := "data: " + t;
      assert line[..5] == "data:";
      assert line[5] == ' ';
      assert line[6..] == t;
    }
    assert lines[0] != "" by { assert |lines[0]| >= 6; }
    assert Dispatch(lines, "") == Dispatch(lines[1..], "" + t + "\n");
    assert lines[1..] == [""] + Lines(rest, "");
    assert lines[1..][1..] == Lines(rest, "");
    assert "" + t + "\n" == t + "\n";
    assert (t + "\n")[..|t + "\n"| - 1] == t;
    assert Dispatch(lines[1..], t + "\n") == [t] + Dispatch(Lines(rest, ""), "");
  }

  /** Frames of texts without line breaks are received one message per
      text, in order, ahead of whatever follows them. */
  lemma {:induction false} MessagesFrames(texts: seq<string>, tail: seq<string>)
    requires forall i :: 0 <= i < |texts| ==> NoBreaks(texts[i])
    ensures Messages(Body(FrameAll(texts) + tail)) == texts + Messages(Body(tail))
    decreases |texts|
  {
    if |texts| == 0 {
      assert FrameAll(texts) + tail == tail;
    } else {
      var es := FrameAll(texts) + tail;
      assert es[0] == Frame(texts[0]);
      assert es[1..] == FrameAll(texts[1..]) + tail;
      MessagesFrame(texts[0], Body(es[1..]));
      MessagesFrames(texts[1..], tail);
      assert [texts[0]] + texts[1..] == texts;
    }
  }

  /** What a client receives from a relayed reply: every text, in order,
      then `[END]` or the error text, provided no text and no error message
      holds a line break. */
  lemma ClientReceives(reply: Reply)
    requires forall i :: 0 <= i < |Texts(reply.chunks)| ==> NoBreaks(Texts(reply.chunks)[i])
    requires reply.ending.Raised? ==> NoBreaks(reply.ending.message)
    ensures reply.ending.Finished? ==> Messages(Body(Events(reply))) == Texts(reply.chunks) + [EndPayload]
    ensures reply.ending.Raised? ==>
              Messages(Body(Events(reply))) == Texts(reply.chunks) + [GeminiErrorPrefix + reply.ending.message]
  {
    var e := Events(reply);
    var closing := if reply.ending.Finished? then EndPayload else GeminiErrorPrefix + reply.ending.message;
    assert NoBreaks(closing) by {
      if reply.ending.Raised? {
        forall i | 0 <= i < |closing|
          ensures !IsBreak(closing[i])
        {
          if i >= |GeminiErrorPrefix| {
            assert closing[i] == reply.ending.message[i - |GeminiErrorPrefix|];
          }
        }
      }
    }
    assert e[|e| - 1] == Frame(closing);
    assert e == FrameAll(Texts(reply.chunks)) + [Frame(closing)];
    MessagesFrames(Texts(reply.chunks), [Frame(closing)]);
    assert [Frame(closing)][1..] == [];
    MessagesFrame(closing, "");
    assert Frame(closing) + "" == Frame(closing);
  }

  /** The body of two events. */
  lemma BodyPair(e: seq<string>)
    requires |e| == 2
    ensures Body(e) == e[0] + e[1]
  {
    assert e[1..][0] == e[1];
    assert Body(e[1..][1..]) == "" by { assert e[1..][1..] == []; }
    assert Body(e[1..]) == e[1] + "";
    assert e[1] + "" == e[1];
  }

  /** The events of a reply with one text that finished normally. */
  lemma OneTextEvents(t: string)
    ensures Events(Reply([Chunk([Candidate([Part(Some(t))])])], Finished)) == [Frame(t), EndEvent()]
  {
    var c := Chunk([Candidate([Part(Some(t))])]);
    assert [c][..0] == [];
    var parts := [Part(Some(t))];
    assert parts[..0] == [];
    assert PartTexts(parts) == PartTexts(parts[..0]) + [t];
    assert ChunkTexts(c) == PartTexts(parts);
    assert Texts([c]) == [t];
  }

  /** A line break inside a text ends the data line; a following line
      that is not a `data` field is skipped, so the client gets only the
      first line of the text. */
  lemma TruncatedAtBreak(x: string, y: string, rest: string)
    requires NoBreaks(x) && NoBreaks(y) && y != "" && DataValue(y).None?
    ensures Messages(Frame(x + "\n" + y) + rest) == [x] + Messages(rest)
  {
    var head := "data: " + x;
    assert NoBreaks(head) by {
      forall i | 0 <= i < |head|
        ensures !IsBreak(head[i])
      {
        if i >= 6 {
          assert head[i] == x[i - 6];
        }
      }
    }
    var afterY := "\n\n" + rest;
    assert Frame(x + "\n" + y) + rest == head + ("\n" + (y + afterY));
    LinesPlain(head, "\n" + (y + afterY), "");
    assert "" + head == head;
    assert ("\n" + (y + afterY))[1..] == y + afterY;
    LinesPlain(y, afterY, "");
    assert "" + y == y;
    assert afterY[1..] == "\n" + rest;
    assert ("\n" + rest)[1..] == rest;
    var lines := [head, y, ""] + Lines(rest, "");
    assert Lines(Frame(x + "\n" + y) + rest, "") == lines;
    assert DataValue(head) == Some(x) by {
      assert head[..5] == "data:";
      assert head[5] == ' ';
      assert head[6..] == x;
    }
    assert lines[0] != "" by { assert |lines[0]| >= 6; }
    assert Dispatch(lines, "") == Dispatch(lines[1..], "" + x + "\n");
    assert lines[1..][0] == y;
    assert Dispatch(lines[1..], x + "\n") == Dispatch(lines[1..][1..], x + "\n");
    assert lines[1..][1..] == [""] + Lines(rest, "");
    assert ([""] + Lines(rest, ""))[1..] == Lines(rest, "");
    assert "" + x + "\n" == x + "\n";
    assert (x + "\n")[..|x + "\n"| - 1] == x;
  }

  /** A text holding a blank line and then a `data: ` line is received as
      two messages. */
  lemma SplitByBlankLine(x: string, y: string, rest: string)
    requires NoBreaks(x) && NoBreaks(y)
    ensures Messages(Frame(x + "\n\n" + "data: " + y) + rest) == [x, y] + Messages(rest)
  {
    assert Frame(x + "\n\n" + "data: " + y) + rest == Frame(x) + (Frame(y) + rest);
    MessagesFrame(x, Frame(y) + rest);
    MessagesFrame(y, rest);
  }

  /** Between messages, a line that is not a `data` field and the blank
      line after it leave nothing behind. */
  lemma SkippedLines(y: string, rest: string)
    requires NoBreaks(y) && y != "" && DataValue(y).None?
    ensures Messages(y + "\n\n" + rest) == Messages(rest)
  {
    var after := "\n\n" + rest;
    assert y + "\n\n" + rest == y + after;
    LinesPlain(y, after, "");
    assert "" + y == y;
    assert after[1..] == "\n" + rest;
    assert ("\n" + rest)[1..] == rest;
    var lines := [y, ""] + Lines(rest, "");
    assert Lines(y + after, "") == lines;
    assert lines[0] == y && lines[0] != "";
    assert Dispatch(lines, "") == Dispatch(lines[1..], "");
    assert lines[1..] == [""] + Lines(rest, "");
    assert lines[1..][0] == "";
    assert Dispatch(lines[1..], "") == Dispatch(lines[1..][1..], "");
    assert lines[1..][1..] == Lines(rest, "");
  }

  /** A paragraph break inside a text ends the message there: a following
      paragraph that is not itself a `data` field never reaches the
      client. */
  lemma ParagraphDropped(x: string, y: string, rest: string)
    requires NoBreaks(x) && NoBreaks(y) && y != "" && DataValue(y).None?
    ensures Messages(Frame(x + "\n\n" + y) + rest) == [x] + Messages(rest)
  {
    assert Frame(x + "\n\n" + y) + rest == Frame(x) + (y + "\n\n" + rest);
    MessagesFrame(x, y + "\n\n" + rest);
    SkippedLines(y, rest);
  }

  /** A text part of two paragraphs `a` and `b` reaches the client as `a`
      alone. */
  lemma ParagraphBreakLosesRest()
    ensures Messages(Body(Events(Reply([Chunk([Candidate([Part(Some("a\n\nb"))])])], Finished))))
         == ["a", EndPayload]
  {
    OneTextEvents("a\n\nb");
    BodyPair([Frame("a\n\nb"), EndEvent()]);
    assert "a\n\nb" == "a" + "\n\n" + "b";
    assert DataValue("b").None?;
    ParagraphDropped("a", "b", EndEvent());
    MessagesFrame(EndPayload, "");
    assert EndEvent() + "" == EndEvent();
    assert Messages("") == [];
  }

  /** A text part `a` newline `b` reaches the client as `a` alone. */
  lemma MultiLineTextTruncated()
    ensures Messages(Body(Events(Reply([Chunk([Candidate([Part(Some("a\nb"))])])], Finished))))
         == ["a", EndPayload]
  {
    OneTextEvents("a\nb");
    BodyPair([Frame("a\nb"), EndEvent()]);
    assert "a\nb" == "a" + "\n" + "b";
    assert DataValue("b").None?;
    TruncatedAtBreak("a", "b", EndEvent());
    MessagesFrame(EndPayload, "");
    assert EndEvent() + "" == EndEvent();
    assert Messages("") == [];
  }

  /** A text part holding a blank line followed by `data: [END]` makes the
      client see the sentinel before the analysis has ended. */
  lemma InjectedSentinel()
    ensures Messages(Body(Events(Reply([Chunk([Candidate([Part(Some("a\n\ndata: [END]"))])])], Finished))))
         == ["a", EndPayload, EndPayload]
  {
    OneTextEvents("a\n\ndata: [END]");
    BodyPair([Frame("a\n\ndata: [END]"), EndEvent()]);
    assert "a\n\ndata: [END]" == "a" + "\n\n" + "data: " + EndPayload;
    SplitByBlankLine("a", EndPayload, EndEvent());
    MessagesFrame(EndPayload, "");
    assert EndEvent() + "" == EndEvent();
    assert Messages("") == [];
  }
}

=== FILE: stream.dfy ===
/** Server-sent event framing of the model's streamed answer
    (`stream_analysis_with_gemini`). The generative model is not modelled:
    its streamed reply, chunks and how it ended, is an input. */
module Stream {
  import opened Wrappers

  /** A response part; `text` is `None` for a part without a `text`
      attribute. */
  datatype Part = Part(text: Option<string>)

  /** A candidate answer: the parts of its content. */
  datatype Candidate = Candidate(parts: seq<Part>)

  /** One streamed chunk: its candidates, possibly none. */
  datatype Chunk = Chunk(candidates: seq<Candidate>)

  /** How the provider's stream ended: exhausted, or by raising an error
      (at the call or during iteration) whose message is given. */
  datatype Ending = Finished | Raised(message: string)

  /** The chunks delivered before the stream ended, and how it ended. */
  datatype Reply = Reply(chunks: seq<Chunk>, ending: Ending)

  const DataPrefix: string := "data: "
  const EventEnd: string := "\n\n"

  /** One event on the wire. */
  function Frame(payload: string): string {
    DataPrefix + payload + EventEnd
  }

  const EndPayload: string := "[END]"
  const GeminiErrorPrefix: string := "Error analyzing with Gemini: "

  /** The sentinel that closes a successful stream. */
  function EndEvent(): string {
    Frame(EndPayload)
  }

  /** The event that closes a failed stream. */
  function ErrorEvent(message: string): string {
    Frame(GeminiErrorPrefix + message)
  }

  /** The payload of one yielded string taken on its own: what lies
      between its `data: ` prefix and its closing blank line. How a client
      splits the concatenated body is `SseClient.Messages`. */
  function Unframe(e: string): (r: Option<string>)
    ensures r.Some? ==> Frame(r.value) == e
  {
    if |e| >= |DataPrefix| + |EventEnd| && e[..|DataPrefix|] == DataPrefix && e[|e| - |EventEnd|..] == EventEnd then
      var payload := e[|DataPrefix|..|e| - |EventEnd|];
      assert e == DataPrefix + payload + EventEnd;
      Some(payload)
    else None
  }

  /** Framing loses nothing: the payload is recovered exactly. */
  lemma UnframeFrame(t: string)
    ensures Unframe(Frame(t)) == Some(t)
  {
    var e := Frame(t);
    assert e[..|DataPrefix|] == DataPrefix;
    assert e[|e| - |EventEnd|..] == EventEnd;
    assert e[|DataPrefix|..|e| - |EventEnd|] == t;
  }

  /** Different payloads make different events. */
  lemma FrameInjective(a: string, b: string)
    requires Frame(a) == Frame(b)
    ensures a == b
  {
    UnframeFrame(a);
    UnframeFrame(b);
  }

  /** The texts of the parts that carry one, in order. */
  function PartTexts(parts: seq<Part>): seq<string>
    decreases |parts|
  {
    if |parts| == 0 then []
    else
      var last := parts[|parts| - 1];
      PartTexts(parts[..|parts| - 1]) + (if last.text.Some? then [last.text.value] else [])
  }

  /** Only the first candidate of a chunk is read. */
  function ChunkTexts(c: Chunk): seq<string> {
    if |c.candidates| == 0 then [] else PartTexts(c.candidates[0].parts)
  }

  /** The texts of all chunks, chunk after chunk. */
  function Texts(chunks: seq<Chunk>): seq<string>
    decreases |chunks|
  {
    if |chunks| == 0 then []
    else Texts(chunks[..|chunks| - 1]) + ChunkTexts(chunks[|chunks| - 1])
  }

  /** One event per text, in order. */
  function FrameAll(texts: seq<string>): (r: seq<string>)
    ensures |r| == |texts|
    ensures forall i :: 0 <= i < |texts| ==> r[i] == Frame(texts[i])
  {
    seq(|texts|, i requires 0 <= i < |texts| => Frame(texts[i]))
  }

  /** The events sent for a reply: one per text part in chunk order, then
      the sentinel if the stream was exhausted or the error event if it
      raised. */
  function Events(reply: Reply): (r: seq<string>)
    ensures |r| == |Texts(reply.chunks)| + 1
    ensures r[..|r| - 1] == FrameAll(Texts(reply.chunks))
    ensures reply.ending.Finished? <==> r[|r| - 1] == EndEvent()
    ensures reply.ending.Raised? ==> r[|r| - 1] == ErrorEvent(reply.ending.message)
  {
    match reply.ending
    case Finished => FrameAll(Texts(reply.chunks)) + [EndEvent()]
    case Raised(m) =>
      ErrorIsNotEnd(m);
      FrameAll(Texts(reply.chunks)) + [ErrorEvent(m)]
  }

  /** The error event is never the sentinel. */
  lemma ErrorIsNotEnd(m: string)
    ensures ErrorEvent(m) != EndEvent()
  {
    if ErrorEvent(m) == EndEvent() {
      FrameInjective(GeminiErrorPrefix + m, EndPayload);
    }
  }

  lemma FrameAllAppend(a: seq<string>, b: seq<string>)
    ensures FrameAll(a + b) == FrameAll(a) + FrameAll(b)
  {
  }

  lemma {:induction false} TextsAppend(a: seq<Chunk>, b: seq<Chunk>)
    ensures Texts(a + b) == Texts(a) + Texts(b)
    decreases |b|
  {
    if |b| == 0 {
      assert a + b == a;
    } else {
      var b' := b[..|b| - 1];
      var last := b[|b| - 1];
      assert (a + b)[..|a + b| - 1] == a + b';
      assert (a + b)[|a + b| - 1] == last;
      assert Texts(a + b) == Texts(a + b') + ChunkTexts(last);
      assert Texts(b) == Texts(b') + ChunkTexts(last);
      TextsAppend(a, b');
    }
  }

  /** Events are relayed as chunks arrive: the events before the closing
      one for a stream of chunks `a` followed by chunks `b` are those for
      `a` followed by those for `b`. */
  lemma Incremental(a: seq<Chunk>, b: seq<Chunk>, ending: Ending)
    ensures var e := Events(Reply(a + b, ending));
      e[..|e| - 1] == Events(Reply(a, ending))[..|Texts(a)|] + Events(Reply(b, ending))[..|Texts(b)|]
  {
    TextsAppend(a, b);
    FrameAllAppend(Texts(a), Texts(b));
  }

  /** Each yielded string, decoded on its own, gives back its text, in
      order, then the sentinel payload or the error payload. */
  lemma PayloadsRecovered(reply: Reply, i: int)
    requires 0 <= i < |Events(reply)|
    ensures i < |Events(reply)| - 1 ==> Unframe(Events(reply)[i]) == Some(Texts(reply.chunks)[i])
    ensures i == |Events(reply)| - 1 && reply.ending.Finished? ==> Unframe(Events(reply)[i]) == Some(EndPayload)
    ensures i == |Events(reply)| - 1 && reply.ending.Raised? ==>
              Unframe(Events(reply)[i]) == Some(GeminiErrorPrefix + reply.ending.message)
  {
    var e := Events(reply);
    if i < |e| - 1 {
      assert e[i] == e[..|e| - 1][i];
      UnframeFrame(Texts(reply.chunks)[i]);
    } else if reply.ending.Finished? {
      UnframeFrame(EndPayload);
    } else {
      UnframeFrame(GeminiErrorPrefix + reply.ending.message);
    }
  }

  /** Before the closing yield, a yielded sentinel comes only from a text
      part that was exactly `[END]`. A client parsing the whole body can
      also be shown one by a text with line breaks, see
      `SseClient.InjectedSentinel`. */
  lemma EarlySentinel(reply: Reply, i: int)
    requires 0 <= i < |Events(reply)| - 1 && Events(reply)[i] == EndEvent()
    ensures Texts(reply.chunks)[i] == EndPayload
  {
    var e := Events(reply);
    assert e[i] == e[..|e| - 1][i];
    FrameInjective(Texts(reply.chunks)[i], EndPayload);
  }

  /** The inner loop of the relay: one event per part that has text. */
  method RelayParts(parts: seq<Part>) returns (events: seq<string>)
    ensures events == FrameAll(PartTexts(parts))
  {
    events := [];
    var j := 0;
    while j < |parts|
      invariant 0 <= j <= |parts|
      invariant events == FrameAll(PartTexts(parts[..j]))
    {
      assert parts[..j + 1][..j] == parts[..j];
      if parts[j].text.Some? {
        events := events + [Frame(parts[j].text.value)];
      }
      j := j + 1;
    }
    assert parts[..j] == parts;
  }

  /** `stream_analysis_with_gemini` as written: a loop over the chunks
      relaying the parts of each chunk's first candidate, then the closing
      event. */
  method Relay(reply: Reply) returns (events: seq<string>)
    ensures events == Events(reply)
  {
    events := [];
    var k := 0;
    while k < |reply.chunks|
      invariant 0 <= k <= |reply.chunks|
      invariant events == FrameAll(Texts(reply.chunks[..k]))
    {
      var chunk := reply.chunks[k];
      assert reply.chunks[..k + 1][..k] == reply.chunks[..k];
      assert Texts(reply.chunks[..k + 1]) == Texts(reply.chunks[..k]) + ChunkTexts(chunk);
      if |chunk.candidates| > 0 && |chunk.candidates[0].parts| > 0 {
        var relayed := RelayParts(chunk.candidates[0].parts);
        FrameAllAppend(Texts(reply.chunks[..k]), ChunkTexts(chunk));
        events := events + relayed;
      }
      k := k + 1;
    }
    assert reply.chunks[..k] == reply.chunks;
    match reply.ending {
      case Finished => events := events + [EndEvent()];
      case Raised(m) => events := events + [ErrorEvent(m)];
    }
  }

  /** Two text chunks and a normal end give exactly three events. */
  lemma HelloWorld()
    ensures Events(Reply([Chunk([Candidate([Part(Some("Hello "))])]), Chunk([Candidate([Part(Some("world"))])])], Finished))
         == ["data: Hello \n\n", "data: world\n\n", "data: [END]\n\n"]
  {
    var c1 := Chunk([Candidate([Part(Some("Hello "))])]);
    var c2 := Chunk([Candidate([Part(Some("world"))])]);
    assert [c1, c2][..1] == [c1];
    assert ChunkTexts(c1) == ["Hello "] by { assert [Part(Some("Hello "))][..0] == []; }
    assert ChunkTexts(c2) == ["world"] by { assert [Part(Some("world"))][..0] == []; }
    assert Texts([c1]) == ["Hello "] by { assert [c1][..0] == []; }
    assert Texts([c1, c2]) == ["Hello ", "world"];
    assert Frame("Hello ") == "data: Hello \n\n";
    assert Frame("world") == "data: world\n\n";
    assert EndEvent() == "data: [END]\n\n";
  }
}

=== FILE: symbols.dfy ===
/** The symbol registry: the list of derivative symbols offered on the
    index page, read from a local JSON file with a fixed fallback
    (`get_default_derivative_symbols`, `load_nse_derivative_symbols`). */
module Symbols {
  import opened Lex

  /** What reading the symbols file can come to. Opening and JSON decoding
      are abstracted to their outcome. */
  datatype SymbolsFile =
    | Absent                    // no file at the path
    | Malformed                 // decoding raised
    | NotAList                  // decoded to something other than a list
    | List(items: seq<string>)  // decoded to a list of strings

  /** The hard-coded fallback, in the order the source lists it. */
  function DefaultSymbols(): seq<string> {
    ["NIFTY", "BANKNIFTY", "FINNIFTY", "MIDCPNIFTY",
     "RELIANCE", "TCS", "HDFCBANK", "ICICIBANK", "INFY", "SBIN", "LT"]
  }

  /** The set of elements of a list (Python's `set(xs)`). */
  function Elements(s: seq<string>): set<string> {
    set x | x in s
  }

  /** Strictly increasing in Python's string order; hence duplicate-free. */
  predicate StrictlySorted(s: seq<string>) {
    forall i, j :: 0 <= i < j < |s| ==> Below(s[i], s[j])
  }

  /** Anything below the head of a strictly sorted list is below all of it. */
  lemma BelowAll(x: string, s: seq<string>)
    requires StrictlySorted(s) && |s| > 0 && Below(x, s[0])
    ensures forall j :: 0 <= j < |s| ==> Below(x, s[j])
  {
    forall j | 0 < j < |s|
      ensures Below(x, s[j])
    {
      BelowTransitive(x, s[0], s[j]);
    }
  }

  /** Adds `x` to a strictly sorted list unless it is already there. */
  function Insert(s: seq<string>, x: string): (r: seq<string>)
    requires StrictlySorted(s)
    ensures |r| > 0 && (r[0] == x || (|s| > 0 && r[0] == s[0]))
    ensures StrictlySorted(r)
    ensures Elements(r) == Elements(s) + {x}
    decreases |s|
  {
    if |s| == 0 then [x]
    else if x == s[0] then s
    else if Below(x, s[0]) then
      BelowAll(x, s);
      [x] + s
    else
      var t := Insert(s[1..], x);
      BelowTotal(x, s[0]);
      assert Below(s[0], t[0]);
      BelowAll(s[0], t);
      ElementsCons(s[0], s[1..]);
      ElementsCons(s[0], t);
      [s[0]] + t
  }

  lemma ElementsCons(x: string, s: seq<string>)
    ensures Elements([x] + s) == {x} + Elements(s)
  {
  }

  /** Python's `sorted(set(xs))` on a list of strings. */
  function SortedSet(xs: seq<string>): (r: seq<string>)
    ensures StrictlySorted(r)
    ensures Elements(r) == Elements(xs)
    decreases |xs|
  {
    if |xs| == 0 then []
    else
      var init := xs[..|xs| - 1];
      assert xs == init + [xs[|xs| - 1]];
      Insert(SortedSet(init), xs[|xs| - 1])
  }

  /** `load_nse_derivative_symbols`: a decoded list comes back deduplicated
      and sorted with exactly its own elements; every other outcome gives
      the fallback list verbatim. */
  function LoadSymbols(file: SymbolsFile): (r: seq<string>)
    ensures file.List? ==> StrictlySorted(r) && Elements(r) == Elements(file.items)
    ensures !file.List? ==> r == DefaultSymbols()
  {
    match file
    case List(items) => SortedSet(items)
    case _ => DefaultSymbols()
  }

  lemma NonEmptyElements(s: seq<string>)
    ensures |s| > 0 ==> Elements(s) != {}
  {
    if |s| > 0 {
      assert s[0] in Elements(s);
    }
  }

  /** A strictly sorted list is determined by its elements. */
  lemma {:induction false} SortedUnique(a: seq<string>, b: seq<string>)
    requires StrictlySorted(a) && StrictlySorted(b)
    requires Elements(a) == Elements(b)
    ensures a == b
    decreases |a|
  {
    NonEmptyElements(b);
    if |a| > 0 {
      assert a[0] in Elements(a);
      assert |b| > 0;
      assert b[0] in Elements(b);
      var k :| 0 <= k < |b| && b[k] == a[0];
      var m :| 0 <= m < |a| && a[m] == b[0];
      if a[0] != b[0] {
        assert k > 0 && m > 0;
        assert Below(b[0], a[0]) && Below(a[0], b[0]);
        BelowAsymmetric(b[0], a[0]);
        assert false;
      }
      assert forall j :: 0 < j < |a| ==> a[j] != a[0] by {
        forall j | 0 < j < |a| ensures a[j] != a[0] {
          if a[j] == a[0] { BelowIrreflexive(a[0]); }
        }
      }
      assert forall j :: 0 < j < |b| ==> b[j] != b[0] by {
        forall j | 0 < j < |b| ensures b[j] != b[0] {
          if b[j] == b[0] { BelowIrreflexive(b[0]); }
        }
      }
      assert a == [a[0]] + a[1..] && b == [b[0]] + b[1..];
      assert Elements(a[1..]) == Elements(a) - {a[0]};
      assert Elements(b[1..]) == Elements(b) - {b[0]};
      SortedUnique(a[1..], b[1..]);
    }
  }

  /** The loaded list is the one and only strictly sorted list holding
      exactly the file's elements. */
  lemma LoadIsSortedSet(xs: seq<string>, r: seq<string>)
    requires StrictlySorted(r) && Elements(r) == Elements(xs)
    ensures LoadSymbols(List(xs)) == r
  {
    SortedUnique(LoadSymbols(List(xs)), r);
  }

  /** Writing the loaded list back to the file and loading again changes
      nothing. */
  lemma LoadIdempotent(xs: seq<string>)
    ensures LoadSymbols(List(LoadSymbols(List(xs)))) == LoadSymbols(List(xs))
  {
    var r := LoadSymbols(List(xs));
    LoadIsSortedSet(r, r);
  }

  /** The fallback holds eleven distinct symbols but is not in sorted
      order, so it differs from what a file listing the same symbols gives. */
  lemma DefaultsUnsorted()
    ensures |DefaultSymbols()| == 11
    ensures Elements(DefaultSymbols()) == Elements(LoadSymbols(List(DefaultSymbols())))
    ensures !StrictlySorted(DefaultSymbols())
    ensures LoadSymbols(Absent) != LoadSymbols(List(DefaultSymbols()))
  {
    var d := DefaultSymbols();
    assert d[0] == "NIFTY" && d[1] == "BANKNIFTY";
    assert !Below(d[0], d[1]);
  }

  /** A file holding `["b", "a", "a"]` loads as `["a", "b"]`. */
  lemma LoadExample()
    ensures LoadSymbols(List(["b", "a", "a"])) == ["a", "b"]
  {
    var r := ["a", "b"];
    assert Below("a", "b");
    assert Elements(["b", "a", "a"]) == {"a", "b"} == Elements(r);
    LoadIsSortedSet(["b", "a", "a"], r);
  }
}

=== FILE: wrappers.dfy ===
/** An optional value, standing for Python's `None` returns and swallowed
    exceptions. */
module Wrappers {

  /** A value that may be absent (Python's `None`). */
  datatype Option<+T> = None | Some(value: T) {

    /** Returns the carried value, or `default` when absent. */
    function GetOr(default: T): T {
      match this
      case Some(v) => v
      case None => default
    }
  }
}
